=== FILE: README.md ===
# Weva booking assistant: a Dafny model

This project models the booking funnel of the Weva assistant chat widget and
the list shaping of its catalog service. A user opens the widget and picks a
category. The widget then lists up to five stores (centers) of that category.
Picking a store lists its departments, and picking a department lists up to
five of the store's services. A final Yes/No question either restarts the
funnel or ends the chat. The user may also type free text, which is logged
and not interpreted.

The model has these modules:

- `Wrappers` (`wrappers.dfy`): `Option` and `Result`.
- `Seqs` (`seqs.dfy`): `slice(0, n)` as `Prefix`, `filter` as `Filter`, `map`
  as `Map`, and the order-preserving subsequence relation with its lemmas.
- `JsText` (`jstext.dfy`): JavaScript's `trim` and the blank-input test.
- `Catalog` (`catalog.dfy`): the records the catalog sends and the abstract
  outcome of one HTTP round trip (`Response`). It also holds the
  filter-and-cap of a center's services by department, which the widget and
  the service layer share.
- `ApiService` (`apiservice.dfy`): the four read operations of
  `src/services/apiService.js` and the category pre-filter.
- `ChatWidget` (`chatwidget.dfy`): the component's state cells and one pure
  function per handler. Each handler that awaits a fetch is split at the
  `await`. The synchronous part returns the new state together with a
  descriptor of the request it issued (`Transition`). A completion function
  then applies the reply.
- `Conversation` (`conversation.dfy`): one event type covering clicks, key
  presses and replies; `Step` and `Run`; and the properties that span
  several handlers. These are the append-only log between resets, the
  well-formedness of every reachable log, the restart rules and a worked
  scenario.

Replies are inputs. A `Response<T>` is either a rejected `fetch` or a reply
with an `ok` flag and a body that `response.json()` did or did not turn into
the expected shape. Replies arrive as separate events in any order, so the
trace lemmas also cover interleaved and stale replies.

The model follows these behaviours of the code:

- The funnel starts at the category choice, and the widget keeps no step
  variable. Its state is the six state cells of the component.
- Closing the widget with the chevron keeps the log. Only the final
  question empties it.
- A failed category fetch still hides the category buttons.
  `showCategories` is cleared before the fetch.
- "Yes" keeps `selectedCenter` and the category list.
- The widget's own fetches never test `response.ok`. A non-ok reply with a
  usable body is shown as data (`Conversation.WidgetIgnoresStatus`). The
  service layer throws on it instead.
- The widget does not apply the stores pre-filter to categories. It lists
  `GET /section` as it comes. Only `ApiService.fetchCategories` filters.
- A store's rating is read from the field `ratinng`. A `review.rating` field
  is never read, so a store whose review only carries `rating` gets rating 0.
  The rating is also not displayed anywhere.

## Model

| member | source | states |
|---|---|---|
| Catalog.ServicesForDepartment | src/services/apiService.js:68-70 | The services of a department are an order-preserving subsequence of the center's services. Each of them has the department in `department_ids`. There are at most five, and they are the first min(5, n) of the n matching services, so they are all matches when at most five match. A service without `department_ids` makes the whole selection fail. |
| ApiService.Call | src/services/apiService.js:8-14 | A rejected fetch fails. A non-ok status fails with the operation's own message. Data is returned exactly when the reply is ok and its body parses. |
| ApiService.FetchCategoryData | src/services/apiService.js:29-42 | Returns the reply's parsed body, and it does so exactly for an ok reply whose body is not `null`. A non-ok reply throws "Failed to fetch category data". |
| ApiService.FetchCenterData | src/services/apiService.js:44-57 | Returns the reply's parsed body, and it does so exactly for an ok reply whose body is not `null`. A non-ok reply throws "Failed to fetch center data". |
| ApiService.KeepStocked | src/services/apiService.js:16-22 | Fails exactly when some category's probe fails. Otherwise it returns the filter of the categories whose probe found a non-empty `stores`. |
| ApiService.FetchCategories | src/services/apiService.js:6-27 | A non-ok section reply throws "Failed to fetch categories". The call succeeds exactly when the section reply is usable and no probe fails, so there is no partial result. On success it returns a subsequence of the server's list holding every stocked category, only stocked ones, as many as there are. |
| ApiService.ProbeWithoutStoresDropsCategory | src/services/apiService.js:18-22 | An ok probe whose body has no `stores` field, such as `[]` or `0`, drops that category, and the call still succeeds. |
| ApiService.FetchServicesForDepartment | src/services/apiService.js:59-75 | A non-ok reply throws "Failed to fetch services". It succeeds exactly when the reply is ok, parses, has a `services` array and every service has `department_ids`. It then returns the catalog selection: the first min(5, matches) services of the department, in server order. |
| ChatWidget.Received | src/components/ChatWidget.js:28-29 | The widget reads a reply whenever its body is usable, whatever its status. Only a rejected fetch or an unusable body is a failure. |
| ChatWidget.Open | src/components/ChatWidget.js:16-23 | Opening a closed widget with an empty log raises the typing indicator and requests the categories, leaving the log and the category visibility as they were. With a non-empty log it only shows the category buttons again, and the log stays unchanged. Opening an open widget changes nothing. |
| ChatWidget.Close | src/components/ChatWidget.js:193 | Closing only clears `isOpen`. The log, categories, selection, category visibility and typing indicator survive. |
| ChatWidget.CategoriesArrived | src/components/ChatWidget.js:26-52 | Appends exactly one assistant message: the prompt when data arrived, the failure text otherwise. The category list is replaced only on data. The typing indicator is off afterwards. |
| ChatWidget.ClickCategory | src/components/ChatWidget.js:55-66 | Appends exactly one user turn carrying the category name, keeping earlier entries. Hides the category buttons and requests that category's detail. |
| ChatWidget.NormalizeStores | src/components/ChatWidget.js:68-74 | The store list has length min(5, n), and entry i comes from server store i. Rating comes from `ratinng` and count from `count`. Each defaults to 0 when the review or the field is missing. |
| ChatWidget.StoresArrived | src/components/ChatWidget.js:63-88 | Appends exactly one assistant message: the normalised store list when the body has `stores`, the failure text otherwise. Typing is off afterwards. |
| ChatWidget.ClickCenter | src/components/ChatWidget.js:92-101 | Appends one user turn with the center name. Sets `selectedCenter` to the store id and requests that center. |
| ChatWidget.DepartmentsArrived | src/components/ChatWidget.js:100-121 | On data it appends one department list with the server's length and order and no cap. Otherwise it appends exactly one failure message. Typing is off afterwards. |
| ChatWidget.ClickDepartment | src/components/ChatWidget.js:125-135 | Appends one user turn with the department name and requests the center held in `selectedCenter`. It raises the typing indicator. Nothing else changes. |
| ChatWidget.ShownServices | src/components/ChatWidget.js:137-146 | The displayed services correspond entry by entry (id, name, image, price, duration) to at most five services of the reply offered by the department, as an order-preserving subsequence. |
| ChatWidget.ServicesArrived | src/components/ChatWidget.js:132-160 | Appends exactly one message: the service list on data, the failure text otherwise. After a successful list in an open widget with categories hidden, the Yes/No question is on screen. |
| ChatWidget.FinalQuestion | src/components/ChatWidget.js:169-179 | Either answer empties the log and shows the category buttons, which hides the Yes/No question. "Yes" keeps the open state and requests the categories. Any other answer closes the widget and issues no request. |
| ChatWidget.SendText | src/components/ChatWidget.js:335-344 | Text with a non-whitespace character is appended verbatim as one user turn and the input is cleared. Blank text changes nothing. Nothing but the log changes. |
| ChatWidget.KeyDown | src/components/ChatWidget.js:319-331 | Enter gives exactly the result of the Send button: the same log, state and input box. Any other key changes nothing. |
| JsText.TrimEmptyIffBlank | src/components/ChatWidget.js:323 | `text.trim()` is empty exactly when every character is JavaScript whitespace. |
| Conversation.Step | src/components/ChatWidget.js:55-179 | The final question is the only event that empties the log. Every other event keeps the log as a prefix and adds at most one entry. Only a center click changes `selectedCenter`. |
| Conversation.LogOnlyGrowsBetweenResets | src/components/ChatWidget.js:55-161 | Over any sequence of events without a final answer, the starting log stays a prefix. The log grows by at most one entry per event. |
| Conversation.StepKeepsWellFormed | src/components/ChatWidget.js:55-161 | Every event keeps user turns as plain text and store and service lists at five entries or fewer. |
| Conversation.RunKeepsWellFormed | src/components/ChatWidget.js:55-161 | Every sequence of events from a well-formed state ends in a well-formed state. |
| Conversation.EndChatIdempotent | src/components/ChatWidget.js:174-178 | Answering "No" twice is the same as answering it once. |
| Conversation.ReopenAfterEndRestarts | src/components/ChatWidget.js:16-19 | After "No", reopening finds an empty log and requests the categories again. |
| Conversation.BookMoreRestartsLog | src/components/ChatWidget.js:170-173 | After "Yes" and its reply, the log holds exactly one assistant message. |
| Conversation.DepartmentRequestsSelectedCenter | src/components/ChatWidget.js:133-135 | After a center click and its reply, a department click requests that same center. |
| Conversation.WidgetIgnoresStatus | src/components/ChatWidget.js:100-111 | A 404 with a usable center body lists departments exactly like a 200. The service layer fails on the same reply. |
| Conversation.OpenPickCategoryScenario | src/components/ChatWidget.js:55-79 | Opening the widget, receiving one category "Spa", picking it and receiving two stores gives the log [prompt, "Spa", two normalised stores]. |

## Left out

- Rendering: the JSX, CSS classes and icons of `src/components/ChatWidget.js:181-353` are not modelled. The two visibility conditions the rendering tests are kept as predicates: the category buttons (line 279) and the Yes/No question (lines 294-295). The routing of a list item click to the matching handler (lines 239-245) is left out.
- Service click (`src/components/ChatWidget.js:164-166`): it only opens a browser tab and changes no state.
- The `Requestlocale` header, the base URL and `console.error`: these are I/O. The model also omits that `fetchCategories` probes categories without passing the locale.
- Real `fetch` and `response.json()`: each reply is an input `Response<T>`. For a store or center detail, a `None` body means only an unparseable body or the JSON `null`. Any other JSON value there is a body whose fields are all absent (`HomeData(None)`, `CenterData(None, None)`), because reading a field of it gives `undefined`. For the section list, a `None` body is anything that is not an array.
- `Promise.all`: the probes are treated as one step. The model reports the first failing probe in list order, while the source rethrows whichever rejects first. The contract only promises that some probe failed.
- Concurrency within a handler: each reply is applied in one step. Replies may still arrive in any order as separate events.
- Numbers: ids, ratings, counts, prices and durations are unbounded integers. Floating point ratings and JavaScript's falsy `NaN` are not modelled.
- FetchCategoryData, FetchCenterData: an ok reply whose body is the JSON `null` fails instead of returning `null`. The only caller of `fetchCategoryData`, src/services/apiService.js:19, throws on `null.stores` anyway. Nothing in the source calls `fetchCenterData`.
- Reading the input box from the DOM: the typed text is a parameter.
- `src/app/page.js`: it only mounts the widget.

=== FILE: apiservice.dfy ===
/** The `ApiService` wrapper around the catalog: four read operations, each of
    which turns a non-ok response into a thrown error, plus the category
    pre-filter that probes every category for stores. The HTTP round trips
    are inputs; the request locale header is not modelled. */
module ApiService {
  import opened Wrappers
  import opened Seqs
  import opened Catalog

  /** What an `ApiService` call throws: the rejection of `fetch` itself, the
      operation's own error for a non-ok status, or the failure of
      `response.json()` or of reading the parsed body. */
  datatype ApiError = NetworkFailure | HttpError(message: string) | MalformedBody

  const CategoriesError := "Failed to fetch categories"
  const CategoryDataError := "Failed to fetch category data"
  const CenterDataError := "Failed to fetch center data"
  const ServicesError := "Failed to fetch services"

  /** The shared shape of all four operations: `fetch`, then
      `if (!response.ok) throw new Error(message)`, then `response.json()`. */
  function Call<T>(response: Response<T>, message: string): (r: Result<T, ApiError>)
    ensures response.NetworkError? ==> r == Failure(NetworkFailure)
    ensures response.Reply? && !response.ok ==> r == Failure(HttpError(message))
    ensures r.Success? <==> response.Reply? && response.ok && response.body.Some?
    ensures r.Success? ==> r.value == response.body.value
  {
    match response
    case NetworkError => Failure(NetworkFailure)
    case Reply(ok, body) =>
      if !ok then Failure(HttpError(message))
      else if body.None? then Failure(MalformedBody)
      else Success(body.value)
  }

  /** `data.stores && data.stores.length > 0`. */
  predicate HasStores(data: HomeData) {
    data.stores.Some? && |data.stores.value| > 0
  }

  /** `fetchCategoryData(categoryId)`: the category detail, or the error. */
  function FetchCategoryData(response: Response<HomeData>): (r: Result<HomeData, ApiError>)
    ensures r.Success? <==> response.Reply? && response.ok && response.body.Some?
    ensures r.Success? ==> r.value == response.body.value
    ensures response.Reply? && !response.ok ==> r == Failure(HttpError(CategoryDataError))
  {
    Call(response, CategoryDataError)
  }

  /** `fetchCenterData(storeId)`: the center detail, or the error. */
  function FetchCenterData(response: Response<CenterData>): (r: Result<CenterData, ApiError>)
    ensures r.Success? <==> response.Reply? && response.ok && response.body.Some?
    ensures r.Success? ==> r.value == response.body.value
    ensures response.Reply? && !response.ok ==> r == Failure(HttpError(CenterDataError))
  {
    Call(response, CenterDataError)
  }

  /** The probe of one category succeeds and finds stores. */
  predicate Stocked(home: Id -> Response<HomeData>, category: Category) {
    var probe := FetchCategoryData(home(category.id));
    probe.Success? && HasStores(probe.value)
  }

  /** The probe of one category fails. */
  predicate ProbeFails(home: Id -> Response<HomeData>, category: Category) {
    FetchCategoryData(home(category.id)).Failure?
  }

  /** No category's probe fails. */
  predicate AllProbesSucceed(categories: seq<Category>, home: Id -> Response<HomeData>) {
    forall i :: 0 <= i < |categories| ==> !ProbeFails(home, categories[i])
  }

  /** The `Promise.all` over the category probes followed by
      `filter(Boolean)`: every probe must succeed, and then the categories
      with stores are kept in their order. `home` gives the reply of
      `GET /home/{id}` for each category id. */
  function KeepStocked(categories: seq<Category>, home: Id -> Response<HomeData>): (r: Result<seq<Category>, ApiError>)
    ensures r.Success? <==> AllProbesSucceed(categories, home)
    ensures r.Success? ==> r.value == Filter(c => Stocked(home, c), categories)
    decreases |categories|
  {
    if categories == [] then Success([])
    else
      var probe := FetchCategoryData(home(categories[0].id));
      var rest := KeepStocked(categories[1..], home);
      if probe.Failure? then Failure(probe.error)
      else if rest.Failure? then
        assert forall i :: 1 <= i < |categories| ==> categories[i] == categories[1..][i - 1];
        Failure(rest.error)
      else
        assert forall i :: 1 <= i < |categories| ==> categories[i] == categories[1..][i - 1];
        if HasStores(probe.value) then Success([categories[0]] + rest.value) else rest
  }

  /** An ok category probe whose body has no `stores` (an array, a number or
      a string parses to such a body) drops the category without failing the
      call. */
  lemma ProbeWithoutStoresDropsCategory(spa: Category)
    ensures FetchCategories(Reply(true, Some([spa])), _ => Reply(true, Some(HomeData(None)))) == Success([])
  {
  }

  /** `fetchCategories(locale)`: the section list cut down to the categories
      whose detail holds a non-empty `stores`, in server order; any failed
      probe fails the whole call, with no partial result. */
  function FetchCategories(section: Response<seq<Category>>, home: Id -> Response<HomeData>): (r: Result<seq<Category>, ApiError>)
    ensures section.Reply? && !section.ok ==> r == Failure(HttpError(CategoriesError))
    ensures r.Success? <==>
              && section.Reply? && section.ok && section.body.Some?
              && AllProbesSucceed(section.body.value, home)
    ensures r.Success? ==>
              && IsSubsequence(r.value, section.body.value)
              && |r.value| == Count(c => Stocked(home, c), section.body.value)
              && (forall i :: 0 <= i < |r.value| ==> Stocked(home, r.value[i]))
              && (forall i :: 0 <= i < |section.body.value| && Stocked(home, section.body.value[i])
                    ==> section.body.value[i] in r.value)
  {
    match Call(section, CategoriesError)
    case Failure(e) => Failure(e)
    case Success(categories) =>
      FilterIsSubsequence(c => Stocked(home, c), categories);
      KeepStocked(categories, home)
  }

  /** `fetchServicesForDepartment(centerId, departmentId)`: at most five of
      the center's services offered by the department, as an
      order-preserving subsequence. A missing `services` array, or a service
      without `department_ids`, makes the filter throw. */
  function FetchServicesForDepartment(response: Response<CenterData>, departmentId: Id): (r: Result<seq<RawService>, ApiError>)
    ensures response.Reply? && !response.ok ==> r == Failure(HttpError(ServicesError))
    ensures r.Success? <==>
              && response.Reply? && response.ok && response.body.Some? && response.body.value.services.Some?
              && ServicesForDepartment(response.body.value.services.value, departmentId).Some?
    ensures r.Success? ==> Some(r.value) == ServicesForDepartment(response.body.value.services.value, departmentId)
    ensures r.Success? ==>
              var services := response.body.value.services.value;
              && |r.value| <= MaxServices
              && (forall i :: 0 <= i < |r.value| ==> Offers(r.value[i], departmentId))
              && IsSubsequence(r.value, services)
              && |r.value| == Min(MaxServices, Count(s => Offers(s, departmentId), services))
  {
    match Call(response, ServicesError)
    case Failure(e) => Failure(e)
    case Success(data) =>
      if data.services.None? then Failure(MalformedBody)
      else
        match ServicesForDepartment(data.services.value, departmentId)
        case None => Failure(MalformedBody)
        case Some(services) => Success(services)
  }
}

=== FILE: catalog.dfy ===
/** The records the remote catalog sends, as far as the widget and the API
    service read them, the abstract outcome of one HTTP round trip, and the
    department filter on a center's services that both of them apply. */
module Catalog {
  import opened Wrappers
  import opened Seqs

  /** Catalog identifiers (numeric in the JSON bodies). */
  type Id = int

  /** An entry of `GET /section`. */
  datatype Category = Category(id: Id, name: string)

  /** The `review` object of a store. The source reads the misspelled field
      `ratinng`; the correctly spelled `rating` is kept here only so that the
      model can say it is never read. */
  datatype RawReview = RawReview(rating: Option<int>, ratinng: Option<int>, count: Option<int>)

  /** A store of `GET /home/{categoryId}`. */
  datatype RawStore = RawStore(id: Id, name: string, image: string, review: Option<RawReview>)

  /** The body of `GET /home/{categoryId}`; `stores` is `None` when the field
      is absent. */
  datatype HomeData = HomeData(stores: Option<seq<RawStore>>)

  /** A department of `GET /center/{centerId}`. */
  datatype RawDepartment = RawDepartment(id: Id, name: string, image: string)

  /** A service of `GET /center/{centerId}`; `departmentIds` is the
      `department_ids` array, `None` when absent. */
  datatype RawService = RawService(id: Id, name: string, image: string, price: int, duration: int,
                                   departmentIds: Option<seq<Id>>)

  /** The body of `GET /center/{centerId}`; each field is `None` when absent. */
  datatype CenterData = CenterData(departments: Option<seq<RawDepartment>>, services: Option<seq<RawService>>)

  /** One HTTP round trip: either `fetch` itself rejects, or a response
      arrives with its `ok` flag and its parsed body. For the object bodies
      (`HomeData`, `CenterData`) the body is `None` only when
      `response.json()` rejects or yields the JSON `null`; any other JSON
      value reads as a body whose fields are all absent, since reading a
      field of it gives `undefined`. For the `/section` list the body is
      `None` whenever it is not an array. */
  datatype Response<T> = NetworkError | Reply(ok: bool, body: Option<T>)

  /** `service.department_ids.includes(departmentId)`; only meaningful when
      the service has `department_ids`. */
  predicate Offers(service: RawService, departmentId: Id) {
    service.departmentIds.Some? && departmentId in service.departmentIds.value
  }

  /** The largest number of services either caller shows for one department. */
  const MaxServices: nat := 5

  /** `services.filter(s => s.department_ids.includes(departmentId)).slice(0, 5)`.
      `filter` visits every service, so a single service without
      `department_ids` throws and nothing is returned (`None`). */
  function ServicesForDepartment(services: seq<RawService>, departmentId: Id): (r: Option<seq<RawService>>)
    ensures r.Some? <==> forall i :: 0 <= i < |services| ==> services[i].departmentIds.Some?
    ensures r.Some? ==> |r.value| <= MaxServices
    ensures r.Some? ==> forall i :: 0 <= i < |r.value| ==> Offers(r.value[i], departmentId)
    ensures r.Some? ==> |r.value| == Min(MaxServices, Count(s => Offers(s, departmentId), services))
    ensures r.Some? ==> IsSubsequence(r.value, services)
    ensures r.Some? ==> |r.value| == Min(MaxServices, |Filter(s => Offers(s, departmentId), services)|)
    ensures r.Some? ==> forall i :: 0 <= i < |r.value| ==> r.value[i] == Filter(s => Offers(s, departmentId), services)[i]
    ensures r.Some? && Count(s => Offers(s, departmentId), services) <= MaxServices ==>
              r.value == Filter(s => Offers(s, departmentId), services)
  {
    if exists i :: 0 <= i < |services| && services[i].departmentIds.None? then None
    else
      var matching := Filter(s => Offers(s, departmentId), services);
      FilterIsSubsequence(s => Offers(s, departmentId), services);
      PrefixOfSubsequence(matching, services, MaxServices);
      Some(Prefix(matching, MaxServices))
  }
}

=== FILE: chatwidget.dfy ===
/** The `ChatWidget` component as pure transitions over its state. Every
    handler that awaits a fetch is split at the `await`: the synchronous part
    returns the new state and a descriptor of the request it issues, and a
    completion function applies the reply once it arrives. */
module ChatWidget {
  import opened Wrappers
  import opened Seqs
  import opened JsText
  import opened Catalog

  datatype Role = User | Assistant

  /** A store as the widget keeps it: at most five per list, rating and
      review count defaulted to 0. */
  datatype Store = Store(id: Id, name: string, image: string, rating: int, count: int)

  datatype Department = Department(id: Id, name: string, image: string)

  datatype Service = Service(id: Id, name: string, image: string, price: int, duration: int)

  /** A message's `content` together with its `type`: plain text has no type,
      each list carries its own. */
  datatype Content =
    | Text(text: string)
    | Stores(stores: seq<Store>)
    | Departments(departments: seq<Department>)
    | Services(services: seq<Service>)

  datatype ListKind = StoresKind | DepartmentsKind | ServicesKind

  datatype Message = Message(role: Role, content: Content) {

    /** The message's `type` field. */
    function Kind(): Option<ListKind> {
      match content
      case Text(_) => None
      case Stores(_) => Some(StoresKind)
      case Departments(_) => Some(DepartmentsKind)
      case Services(_) => Some(ServicesKind)
    }
  }

  /** The component's state cells. */
  datatype Widget = Widget(
    isOpen: bool,
    categories: seq<Category>,
    messages: seq<Message>,
    isTyping: bool,
    showCategories: bool,
    selectedCenter: Option<Id>)

  /** The state on mount. */
  const Initial := Widget(false, [], [], false, true, None)

  /** The request a handler issues: `GET /section`, `GET /home/{id}`, or
      `GET /center/{id}`; the center id is `None` when `selectedCenter` is
      still `null`, which the source puts into the URL as is. */
  datatype Request = SectionRequest | HomeRequest(categoryId: Id) | CenterRequest(centerId: Option<Id>)

  /** The state right after a handler's synchronous part, and the request it
      leaves in flight, if any. */
  datatype Transition = Transition(state: Widget, request: Option<Request>)

  const CategoryPrompt := "Hi, Please choose a category."
  const CategoriesFailed := "Failed to fetch categories. Please try again."
  const StoresFailed := "Failed to fetch data."
  const DepartmentsFailed := "Failed to fetch departments."
  const ServicesFailed := "Failed to fetch services."

  /** The largest number of stores one list shows. */
  const MaxStores: nat := 5

  function UserTurn(text: string): Message {
    Message(User, Text(text))
  }

  function AssistantText(text: string): Message {
    Message(Assistant, Text(text))
  }

  /** `log` is `before` with exactly the message `m` appended. */
  predicate AppendsOne(before: seq<Message>, log: seq<Message>, m: Message) {
    |log| == |before| + 1 && log[..|before|] == before && log[|before|] == m
  }

  /** The widget's own fetches never look at `response.ok`: a reply counts
      as data whenever `response.json()` yields the shape the handler reads.
      Only a rejected `fetch` or an unusable body lands in the `catch`. */
  function Received<T>(response: Response<T>): (r: Option<T>)
    ensures r.Some? <==> response.Reply? && response.body.Some?
    ensures response.Reply? ==> r == response.body
  {
    match response
    case NetworkError => None
    case Reply(_, body) => body
  }

  // ---------------------------------------------------------------- opening

  /** `setIsOpen(true)` and the effect on `[isOpen]`. The effect only runs
      when `isOpen` changes; on a first opening (empty log) it raises the
      typing indicator and requests the category list, on a reopening it
      shows the category buttons again and leaves the log alone. */
  function Open(s: Widget): (t: Transition)
    ensures t.state.isOpen
    ensures t.state.messages == s.messages && t.state.categories == s.categories
    ensures t.state.selectedCenter == s.selectedCenter
    ensures !s.isOpen && s.messages == [] ==> t.state.isTyping && t.request == Some(SectionRequest)
    ensures !s.isOpen && s.messages == [] ==> t.state.showCategories == s.showCategories
    ensures !s.isOpen && s.messages != [] ==>
              t.state == s.(isOpen := true, showCategories := true) && t.request.None?
    ensures !s.isOpen && s.messages != [] ==> (CategoryPickerShown(t.state) <==> |s.categories| > 0)
    ensures s.isOpen ==> t == Transition(s, None)
  {
    if s.isOpen then Transition(s, None)
    else if |s.messages| == 0 then Transition(s.(isOpen := true, isTyping := true), Some(SectionRequest))
    else Transition(s.(isOpen := true, showCategories := true), None)
  }

  /** `setIsOpen(false)` from the chevron button: the effect then finds the
      widget closed and does nothing, so the log survives a close. */
  function Close(s: Widget): (r: Widget)
    ensures !r.isOpen
    ensures r.messages == s.messages && r.categories == s.categories
    ensures r.selectedCenter == s.selectedCenter && r.showCategories == s.showCategories
    ensures r.isTyping == s.isTyping
  {
    s.(isOpen := false)
  }

  /** The completion of `fetchCategories`: on data, the categories are stored
      and the prompt appended; otherwise the failure text is appended and
      the previous categories stay. The typing indicator drops either way. */
  function CategoriesArrived(s: Widget, reply: Response<seq<Category>>): (r: Widget)
    ensures !r.isTyping
    ensures AppendsOne(s.messages, r.messages,
                       AssistantText(if Received(reply).Some? then CategoryPrompt else CategoriesFailed))
    ensures r.categories == (if Received(reply).Some? then Received(reply).value else s.categories)
    ensures r.isOpen == s.isOpen && r.showCategories == s.showCategories
    ensures r.selectedCenter == s.selectedCenter
  {
    match Received(reply)
    case Some(categories) =>
      s.(categories := categories, messages := s.messages + [AssistantText(CategoryPrompt)], isTyping := false)
    case None =>
      s.(messages := s.messages + [AssistantText(CategoriesFailed)], isTyping := false)
  }

  // ------------------------------------------------------------- categories

  /** The synchronous part of `handleCategoryClick`: the user's turn names
      the category, the category buttons hide, and the detail is requested. */
  function ClickCategory(s: Widget, categoryId: Id, categoryName: string): (t: Transition)
    ensures AppendsOne(s.messages, t.state.messages, UserTurn(categoryName))
    ensures !t.state.showCategories && t.state.isTyping && !CategoryPickerShown(t.state)
    ensures t.request == Some(HomeRequest(categoryId))
    ensures t.state.isOpen == s.isOpen && t.state.categories == s.categories
    ensures t.state.selectedCenter == s.selectedCenter
  {
    Transition(s.(messages := s.messages + [UserTurn(categoryName)], showCategories := false, isTyping := true),
               Some(HomeRequest(categoryId)))
  }

  /** One store of the reply as the widget keeps it. The rating is read from
      the field `ratinng`; a missing review, or a missing or zero field,
      gives 0. */
  function NormalizeStore(raw: RawStore): Store {
    match raw.review
    case None => Store(raw.id, raw.name, raw.image, 0, 0)
    case Some(review) => Store(raw.id, raw.name, raw.image, review.ratinng.GetOr(0), review.count.GetOr(0))
  }

  /** `stores.slice(0, 5).map(...)`: the first five stores, each normalised,
      in server order. */
  function NormalizeStores(stores: seq<RawStore>): (r: seq<Store>)
    ensures |r| == Min(MaxStores, |stores|)
    ensures forall i :: 0 <= i < |r| ==>
              && r[i].id == stores[i].id && r[i].name == stores[i].name && r[i].image == stores[i].image
              && (stores[i].review.None? ==> r[i].rating == 0 && r[i].count == 0)
              && (stores[i].review.Some? ==>
                    && r[i].rating == stores[i].review.value.ratinng.GetOr(0)
                    && r[i].count == stores[i].review.value.count.GetOr(0))
  {
    Map(NormalizeStore, Prefix(stores, MaxStores))
  }

  /** The completion of `handleCategoryClick`: the store list on data, the
      failure text when the fetch fails or the body has no `stores`. */
  function StoresArrived(s: Widget, reply: Response<HomeData>): (r: Widget)
    ensures !r.isTyping
    ensures var data := Received(reply);
            if data.Some? && data.value.stores.Some? then
              AppendsOne(s.messages, r.messages, Message(Assistant, Stores(NormalizeStores(data.value.stores.value))))
            else
              AppendsOne(s.messages, r.messages, AssistantText(StoresFailed))
    ensures r.isOpen == s.isOpen && r.categories == s.categories
    ensures r.showCategories == s.showCategories && r.selectedCenter == s.selectedCenter
  {
    var data := Received(reply);
    var shown :=
      if data.Some? && data.value.stores.Some? then Message(Assistant, Stores(NormalizeStores(data.value.stores.value)))
      else AssistantText(StoresFailed);
    s.(messages := s.messages + [shown], isTyping := false)
  }

  // ---------------------------------------------------------------- centers

  /** The synchronous part of `handleCenterClick`: the user's turn names the
      center, which becomes `selectedCenter`, and its detail is requested. */
  function ClickCenter(s: Widget, storeId: Id, centerName: string): (t: Transition)
    ensures AppendsOne(s.messages, t.state.messages, UserTurn(centerName))
    ensures t.state.selectedCenter == Some(storeId) && t.state.isTyping
    ensures t.request == Some(CenterRequest(Some(storeId)))
    ensures t.state.isOpen == s.isOpen && t.state.categories == s.categories
    ensures t.state.showCategories == s.showCategories
  {
    Transition(s.(messages := s.messages + [UserTurn(centerName)], selectedCenter := Some(storeId), isTyping := true),
               Some(CenterRequest(Some(storeId))))
  }

  function ToDepartment(raw: RawDepartment): Department {
    Department(raw.id, raw.name, raw.image)
  }

  /** The completion of `handleCenterClick`: every department of the reply,
      in server order and with no cap, or the failure text. */
  function DepartmentsArrived(s: Widget, reply: Response<CenterData>): (r: Widget)
    ensures !r.isTyping
    ensures var data := Received(reply);
            if data.Some? && data.value.departments.Some? then
              var raw := data.value.departments.value;
              && |r.messages| == |s.messages| + 1 && r.messages[..|s.messages|] == s.messages
              && r.messages[|s.messages|].role == Assistant
              && r.messages[|s.messages|].content.Departments?
              && var shown := r.messages[|s.messages|].content.departments;
                 && |shown| == |raw|
                 && forall i :: 0 <= i < |raw| ==>
                      shown[i].id == raw[i].id && shown[i].name == raw[i].name && shown[i].image == raw[i].image
            else
              AppendsOne(s.messages, r.messages, AssistantText(DepartmentsFailed))
    ensures r.isOpen == s.isOpen && r.categories == s.categories
    ensures r.showCategories == s.showCategories && r.selectedCenter == s.selectedCenter
  {
    var data := Received(reply);
    var shown :=
      if data.Some? && data.value.departments.Some? then
        Message(Assistant, Departments(Map(ToDepartment, data.value.departments.value)))
      else AssistantText(DepartmentsFailed);
    s.(messages := s.messages + [shown], isTyping := false)
  }

  // ------------------------------------------------------------ departments

  /** The synchronous part of `handleDepartmentClick`: the user's turn names
      the department and the center held in `selectedCenter` is requested
      again; nothing else changes. */
  function ClickDepartment(s: Widget, departmentId: Id, departmentName: string): (t: Transition)
    ensures AppendsOne(s.messages, t.state.messages, UserTurn(departmentName))
    ensures t.state.isTyping
    ensures t.request == Some(CenterRequest(s.selectedCenter))
    ensures t.state.isOpen == s.isOpen && t.state.categories == s.categories
    ensures t.state.showCategories == s.showCategories && t.state.selectedCenter == s.selectedCenter
  {
    Transition(s.(messages := s.messages + [UserTurn(departmentName)], isTyping := true),
               Some(CenterRequest(s.selectedCenter)))
  }

  function ToService(raw: RawService): Service {
    Service(raw.id, raw.name, raw.image, raw.price, raw.duration)
  }

  /** The services the widget shows for a department, before the reply is
      wrapped in a message: the catalog selection, mapped to display
      records; `None` when the reply has no `services` or the filter throws. */
  function ShownServices(data: CenterData, departmentId: Id): (r: Option<seq<Service>>)
    ensures r.Some? <==> data.services.Some? && ServicesForDepartment(data.services.value, departmentId).Some?
    ensures r.Some? ==>
              var chosen := ServicesForDepartment(data.services.value, departmentId).value;
              && |r.value| == |chosen| <= MaxServices
              && IsSubsequence(chosen, data.services.value)
              && forall i :: 0 <= i < |chosen| ==>
                   && Offers(chosen[i], departmentId)
                   && r.value[i].id == chosen[i].id && r.value[i].name == chosen[i].name
                   && r.value[i].image == chosen[i].image
                   && r.value[i].price == chosen[i].price && r.value[i].duration == chosen[i].duration
  {
    if data.services.None? then None
    else
      match ServicesForDepartment(data.services.value, departmentId)
      case None => None
      case Some(chosen) => Some(Map(ToService, chosen))
  }

  /** The completion of `handleDepartmentClick`: the services of the
      requested center offered by the department, at most five, or the
      failure text. */
  function ServicesArrived(s: Widget, departmentId: Id, reply: Response<CenterData>): (r: Widget)
    ensures !r.isTyping
    ensures var data := Received(reply);
            if data.Some? && ShownServices(data.value, departmentId).Some? then
              AppendsOne(s.messages, r.messages,
                         Message(Assistant, Services(ShownServices(data.value, departmentId).value)))
            else
              AppendsOne(s.messages, r.messages, AssistantText(ServicesFailed))
    ensures (s.isOpen && !s.showCategories && Received(reply).Some?
             && ShownServices(Received(reply).value, departmentId).Some?) ==> FinalQuestionShown(r)
    ensures r.isOpen == s.isOpen && r.categories == s.categories
    ensures r.showCategories == s.showCategories && r.selectedCenter == s.selectedCenter
  {
    var shown: Message :=
      match Received(reply)
      case None => AssistantText(ServicesFailed)
      case Some(data) =>
        match ShownServices(data, departmentId)
        case None => AssistantText(ServicesFailed)
        case Some(services) => Message(Assistant, Services(services));
    s.(messages := s.messages + [shown], isTyping := false)
  }

  // -------------------------------------------------------- final question

  /** `handleFinalQuestion(answer)`: either answer empties the log and shows
      the category buttons; "Yes" requests the categories again and keeps
      the widget as it was, any other answer closes it. */
  function FinalQuestion(s: Widget, answer: string): (t: Transition)
    ensures t.state.messages == [] && t.state.showCategories && !FinalQuestionShown(t.state)
    ensures answer == "Yes" ==> t.request == Some(SectionRequest) && t.state.isOpen == s.isOpen
    ensures answer != "Yes" ==> t.request.None? && !t.state.isOpen
    ensures t.state.categories == s.categories && t.state.selectedCenter == s.selectedCenter
    ensures t.state.isTyping == s.isTyping
  {
    if answer == "Yes" then Transition(s.(messages := [], showCategories := true), Some(SectionRequest))
    else Transition(s.(messages := [], isOpen := false, showCategories := true), None)
  }

  // -------------------------------------------------------------- free text

  /** The state after a send, and what the input box holds afterwards. */
  datatype Sent = Sent(state: Widget, input: string)

  /** The Send button (and Enter): a text whose trim is non-empty becomes one
      user turn, verbatim, and the input is cleared; a blank text changes
      nothing. */
  function SendText(s: Widget, text: string): (r: Sent)
    ensures !IsBlank(text) ==> AppendsOne(s.messages, r.state.messages, UserTurn(text)) && r.input == ""
    ensures IsBlank(text) ==> r == Sent(s, text)
    ensures r.state == s.(messages := r.state.messages)
  {
    TrimEmptyIffBlank(text);
    if Trim(text) != [] then Sent(s.(messages := s.messages + [UserTurn(text)]), "")
    else Sent(s, text)
  }

  /** `onKeyDown` of the input: only Enter sends. */
  function KeyDown(s: Widget, key: string, text: string): (r: Sent)
    ensures key != "Enter" ==> r == Sent(s, text)
    ensures key == "Enter" && !IsBlank(text) ==> AppendsOne(s.messages, r.state.messages, UserTurn(text))
    ensures key == "Enter" && IsBlank(text) ==> r == Sent(s, text)
    ensures key == "Enter" ==> r == SendText(s, text)
  {
    if key == "Enter" then SendText(s, text) else Sent(s, text)
  }

  // --------------------------------------------------------- what is shown

  /** The category buttons are on screen. */
  predicate CategoryPickerShown(s: Widget) {
    s.isOpen && s.showCategories && |s.categories| > 0
  }

  /** The "Yes"/"No" buttons of the final question are on screen: categories
      hidden and some message of the log is a service list. */
  predicate FinalQuestionShown(s: Widget) {
    s.isOpen && !s.showCategories && exists i :: 0 <= i < |s.messages| && s.messages[i].Kind() == Some(ServicesKind)
  }
}

=== FILE: conversation.dfy ===
/** The widget driven by a stream of events: the user's clicks and key
    presses, and the replies to the requests they issued, each applied to
    completion before the next. Here live the properties that span several
    handlers: the log only grows between resets, every reachable state is
    well formed, and the restart rules. */
module Conversation {
  import opened Wrappers
  import opened Catalog
  import opened ChatWidget
  import ApiService

  datatype Event =
    | OpenClicked
    | CloseClicked
    | CategoryClicked(categoryId: Id, categoryName: string)
    | CenterClicked(storeId: Id, centerName: string)
    | DepartmentClicked(departmentId: Id, departmentName: string)
    | FinalAnswer(answer: string)
    | KeyPressed(key: string, text: string)
    | SendClicked(text: string)
    | CategoriesReplied(categories: Response<seq<Category>>)
    | StoresReplied(home: Response<HomeData>)
    | DepartmentsReplied(center: Response<CenterData>)
    | ServicesReplied(departmentId: Id, center: Response<CenterData>)

  /** `before` is an initial segment of `after`. */
  predicate IsPrefixOf(before: seq<Message>, after: seq<Message>) {
    |before| <= |after| && after[..|before|] == before
  }

  /** One event applied to the state. The final question is the only event
      that empties the log; every other event keeps the log and appends at
      most one message to it. */
  function Step(s: Widget, e: Event): (r: Widget)
    ensures e.FinalAnswer? ==> r.messages == [] && r.showCategories
    ensures !e.FinalAnswer? ==> IsPrefixOf(s.messages, r.messages) && |r.messages| <= |s.messages| + 1
    ensures e.CenterClicked? ==> r.selectedCenter == Some(e.storeId)
    ensures !e.CenterClicked? ==> r.selectedCenter == s.selectedCenter
  {
    match e
    case OpenClicked => Open(s).state
    case CloseClicked => Close(s)
    case CategoryClicked(id, name) => ClickCategory(s, id, name).state
    case CenterClicked(id, name) => ClickCenter(s, id, name).state
    case DepartmentClicked(id, name) => ClickDepartment(s, id, name).state
    case FinalAnswer(answer) => FinalQuestion(s, answer).state
    case KeyPressed(key, text) => KeyDown(s, key, text).state
    case SendClicked(text) => SendText(s, text).state
    case CategoriesReplied(reply) => CategoriesArrived(s, reply)
    case StoresReplied(reply) => StoresArrived(s, reply)
    case DepartmentsReplied(reply) => DepartmentsArrived(s, reply)
    case ServicesReplied(id, reply) => ServicesArrived(s, id, reply)
  }

  /** The events applied in order. */
  function Run(s: Widget, events: seq<Event>): Widget
    decreases |events|
  {
    if events == [] then s else Run(Step(s, events[0]), events[1..])
  }

  predicate NoReset(events: seq<Event>) {
    forall i :: 0 <= i < |events| ==> !events[i].FinalAnswer?
  }

  /** Between two resets the log is append-only: what was logged stays,
      position by position, and each event adds at most one entry. */
  lemma {:induction false} LogOnlyGrowsBetweenResets(s: Widget, events: seq<Event>)
    requires NoReset(events)
    ensures IsPrefixOf(s.messages, Run(s, events).messages)
    ensures |Run(s, events).messages| <= |s.messages| + |events|
    decreases |events|
  {
    if events != [] {
      var next := Step(s, events[0]);
      assert NoReset(events[1..]) by {
        forall i | 0 <= i < |events[1..]| ensures !events[1..][i].FinalAnswer? {
          assert events[1..][i] == events[i + 1];
        }
      }
      LogOnlyGrowsBetweenResets(next, events[1..]);
      var last := Run(next, events[1..]).messages;
      assert last[..|s.messages|] == last[..|next.messages|][..|s.messages|];
    }
  }

  /** The shape every log keeps: user turns are plain text, and no store or
      service list holds more than five entries. */
  predicate WellFormed(s: Widget) {
    forall i :: 0 <= i < |s.messages| ==> WellFormedMessage(s.messages[i])
  }

  predicate WellFormedMessage(m: Message) {
    && (m.role == User ==> m.content.Text?)
    && (m.content.Stores? ==> |m.content.stores| <= MaxStores)
    && (m.content.Services? ==> |m.content.services| <= MaxServices)
  }

  /** Every event keeps the log well formed. */
  lemma StepKeepsWellFormed(s: Widget, e: Event)
    requires WellFormed(s)
    ensures WellFormed(Step(s, e))
  {
  }

  /** Every state reached from mount by any sequence of events is well
      formed. */
  lemma {:induction false} RunKeepsWellFormed(s: Widget, events: seq<Event>)
    requires WellFormed(s)
    ensures WellFormed(Run(s, events))
    decreases |events|
  {
    if events != [] {
      StepKeepsWellFormed(s, events[0]);
      RunKeepsWellFormed(Step(s, events[0]), events[1..]);
    }
  }

  /** Answering "No" twice is the same as answering it once. */
  lemma EndChatIdempotent(s: Widget)
    ensures Step(Step(s, FinalAnswer("No")), FinalAnswer("No")) == Step(s, FinalAnswer("No"))
  {
  }

  /** After "No", opening the widget again starts the funnel from scratch:
      the log is empty, so the category list is requested. */
  lemma ReopenAfterEndRestarts(s: Widget)
    ensures var t := Open(FinalQuestion(s, "No").state);
            t.request == Some(SectionRequest) && t.state.isTyping && t.state.messages == []
  {
  }

  /** After "Yes" and the reply to its category request, the log holds
      exactly one message: the prompt, or the failure text. */
  lemma BookMoreRestartsLog(s: Widget, reply: Response<seq<Category>>)
    ensures var r := CategoriesArrived(FinalQuestion(s, "Yes").state, reply);
            && |r.messages| == 1 && r.messages[0].role == Assistant
            && r.showCategories && r.isOpen == s.isOpen
  {
  }

  /** After a center click and its reply, a department click requests that
      same center: the services shown come from the selected center. */
  lemma DepartmentRequestsSelectedCenter(s: Widget, storeId: Id, centerName: string, center: Response<CenterData>,
                                         departmentId: Id, departmentName: string)
    ensures var picked := DepartmentsArrived(ClickCenter(s, storeId, centerName).state, center);
            ClickDepartment(picked, departmentId, departmentName).request == Some(CenterRequest(Some(storeId)))
  {
  }

  /** The widget reads a reply whatever its status, where the service layer
      refuses any non-ok reply: the same 404 with a parseable body lists
      departments in the widget and fails in `ApiService.fetchCenterData`. */
  lemma WidgetIgnoresStatus(s: Widget, data: CenterData)
    requires data.departments.Some?
    ensures DepartmentsArrived(s, Reply(false, Some(data))) == DepartmentsArrived(s, Reply(true, Some(data)))
    ensures Last(DepartmentsArrived(s, Reply(false, Some(data))).messages).content.Departments?
    ensures ApiService.FetchCenterData(Reply(false, Some(data))).Failure?
  {
  }

  function Last(ms: seq<Message>): Message
    requires ms != []
  {
    ms[|ms| - 1]
  }

  // The replies of the scenario below.
  const Spa := Category(7, "Spa")
  const StoreA := RawStore(1, "A", "a.png", Some(RawReview(Some(4), Some(3), Some(12))))
  const StoreB := RawStore(2, "B", "b.png", None)
  const ScenarioEvents := [OpenClicked, CategoriesReplied(Reply(true, Some([Spa]))),
                           CategoryClicked(7, "Spa"), StoresReplied(Reply(true, Some(HomeData(Some([StoreA, StoreB])))))]

  /** A walk through the funnel: open, the categories arrive, "Spa" is
      picked and its detail lists two stores. Store A's review carries
      `rating` 4 and `ratinng` 3, and the widget keeps 3; store B has no
      review and gets 0. */
  lemma OpenPickCategoryScenario()
    ensures var s := Run(Initial, ScenarioEvents);
            && s.messages == [AssistantText(CategoryPrompt), UserTurn("Spa"),
                              Message(Assistant, Stores([Store(1, "A", "a.png", 3, 12), Store(2, "B", "b.png", 0, 0)]))]
            && s.isOpen && !s.isTyping && !s.showCategories && s.categories == [Spa]
  {
    var events := ScenarioEvents;
    var s1 := Step(Initial, events[0]);
    assert s1 == Initial.(isOpen := true, isTyping := true);
    var s2 := Step(s1, events[1]);
    assert s2 == s1.(categories := [Spa], messages := [AssistantText(CategoryPrompt)], isTyping := false);
    var s3 := Step(s2, events[2]);
    assert s3 == s2.(messages := s2.messages + [UserTurn("Spa")], showCategories := false, isTyping := true);
    var s4 := Step(s3, events[3]);
    var shown := [Store(1, "A", "a.png", 3, 12), Store(2, "B", "b.png", 0, 0)];
    assert NormalizeStores([StoreA, StoreB]) == shown;
    assert s4 == s3.(messages := s3.messages + [Message(Assistant, Stores(shown))], isTyping := false);
    assert Run(s4, []) == s4;
    assert Run(s3, [events[3]]) == s4;
    assert events[2..] == [events[2], events[3]] && Run(s2, events[2..]) == s4;
    assert events[1..] == [events[1]] + events[2..] && Run(s1, events[1..]) == s4;
  }
}

=== FILE: jstext.dfy ===
/** JavaScript's `String.prototype.trim` over Unicode scalar values, and the
    truthiness test `if (s.trim())` that the chat input applies to typed text. */
module JsText {

  /** The ECMAScript WhiteSpace and LineTerminator code points: tab, vertical
      tab, form feed, space, no-break space, zero-width no-break space, line
      feed, carriage return, the line and paragraph separators, and the other
      members of the Unicode space-separator category. */
  predicate IsWhitespace(c: char) {
    || c == '\t' || c == '\U{000B}' || c == '\U{000C}' || c == ' '
    || c == '\U{00A0}' || c == '\U{FEFF}'
    || c == '\n' || c == '\r' || c == '\U{2028}' || c == '\U{2029}'
    || c == '\U{1680}' || ('\U{2000}' <= c <= '\U{200A}')
    || c == '\U{202F}' || c == '\U{205F}' || c == '\U{3000}'
  }

  /** Every character of `t` is whitespace (the empty string included). */
  predicate IsBlank(t: string) {
    forall i :: 0 <= i < |t| ==> IsWhitespace(t[i])
  }

  /** Removes the leading whitespace. */
  function TrimStart(t: string): (r: string)
    ensures |r| <= |t| && r == t[|t| - |r|..]
    ensures forall i :: 0 <= i < |t| - |r| ==> IsWhitespace(t[i])
    ensures r == [] || !IsWhitespace(r[0])
  {
    if t != [] && IsWhitespace(t[0]) then
      var r := TrimStart(t[1..]);
      assert t[|t| - |r|..] == t[1..][|t[1..]| - |r|..];
      r
    else t
  }

  /** Removes the trailing whitespace. */
  function TrimEnd(t: string): (r: string)
    ensures |r| <= |t| && r == t[..|r|]
    ensures forall i :: |r| <= i < |t| ==> IsWhitespace(t[i])
    ensures r == [] || !IsWhitespace(r[|r| - 1])
  {
    if t != [] && IsWhitespace(t[|t| - 1]) then
      var r := TrimEnd(t[..|t| - 1]);
      assert t[..|r|] == t[..|t| - 1][..|r|];
      r
    else t
  }

  /** JavaScript's `t.trim()`. */
  function Trim(t: string): (r: string) {
    TrimEnd(TrimStart(t))
  }

  /** The trimmed text is empty exactly when the text is blank, so `if
      (t.trim())` accepts exactly the texts holding some non-whitespace
      character. */
  lemma TrimEmptyIffBlank(t: string)
    ensures Trim(t) == [] <==> IsBlank(t)
  {
  }
}

=== FILE: seqs.dfy ===
/** Order-preserving list shaping: `slice(0, n)` and `filter`, and the
    subsequence relation that both of them establish. */
module Seqs {

  function Min(a: int, b: int): int {
    if a <= b then a else b
  }

  /** JavaScript's `xs.slice(0, n)`: the first `n` entries, or all of them when
      there are fewer. */
  function Prefix<T>(xs: seq<T>, n: nat): (r: seq<T>)
    ensures |r| == Min(n, |xs|)
    ensures forall i :: 0 <= i < |r| ==> r[i] == xs[i]
  {
    if |xs| <= n then xs else xs[..n]
  }

  /** JavaScript's `xs.filter(p)`. */
  function Filter<T>(p: T -> bool, xs: seq<T>): (r: seq<T>)
    ensures |r| <= |xs|
    ensures forall i :: 0 <= i < |r| ==> p(r[i])
    ensures forall i :: 0 <= i < |r| ==> r[i] in xs
    ensures forall i :: 0 <= i < |xs| && p(xs[i]) ==> xs[i] in r
  {
    if xs == [] then []
    else if p(xs[0]) then [xs[0]] + Filter(p, xs[1..])
    else Filter(p, xs[1..])
  }

  /** The number of entries of `xs` that satisfy `p`. */
  function Count<T>(p: T -> bool, xs: seq<T>): nat {
    if xs == [] then 0
    else (if p(xs[0]) then 1 else 0) + Count(p, xs[1..])
  }

  /** `xs` can be obtained from `ys` by deleting entries, keeping the order of
      the rest. */
  ghost predicate IsSubsequence<T>(xs: seq<T>, ys: seq<T>)
    decreases |ys|
  {
    if xs == [] then true
    else if ys == [] then false
    else (xs[0] == ys[0] && IsSubsequence(xs[1..], ys[1..])) || IsSubsequence(xs, ys[1..])
  }

  /** A filter keeps exactly the entries that satisfy the predicate, in their
      original order, and nothing else. */
  lemma {:induction false} FilterIsSubsequence<T>(p: T -> bool, xs: seq<T>)
    ensures IsSubsequence(Filter(p, xs), xs)
    ensures |Filter(p, xs)| == Count(p, xs)
    decreases |xs|
  {
    if xs != [] {
      FilterIsSubsequence(p, xs[1..]);
      var r := Filter(p, xs);
      if p(xs[0]) {
        assert r[0] == xs[0] && r[1..] == Filter(p, xs[1..]);
      } else {
        SubsequenceDropsHead(r, xs);
      }
    }
  }

  /** Helper: a subsequence of the tail is a subsequence of the whole. */
  lemma SubsequenceDropsHead<T>(xs: seq<T>, ys: seq<T>)
    requires ys != [] && IsSubsequence(xs, ys[1..])
    ensures IsSubsequence(xs, ys)
  {
  }

  /** Cutting a subsequence short leaves a subsequence. */
  lemma {:induction false} PrefixOfSubsequence<T>(xs: seq<T>, ys: seq<T>, n: nat)
    requires IsSubsequence(xs, ys)
    ensures IsSubsequence(Prefix(xs, n), ys)
    decreases |ys|
  {
    var px := Prefix(xs, n);
    if px != [] {
      assert xs != [] && ys != [];
      if xs[0] == ys[0] && IsSubsequence(xs[1..], ys[1..]) {
        PrefixOfSubsequence(xs[1..], ys[1..], n - 1);
        assert px[1..] == Prefix(xs[1..], n - 1);
      } else {
        PrefixOfSubsequence(xs, ys[1..], n);
      }
    }
  }

  /** Applies `f` to every entry, keeping the order (JavaScript's `xs.map(f)`). */
  function Map<T, U>(f: T -> U, xs: seq<T>): (r: seq<U>)
    ensures |r| == |xs|
    ensures forall i :: 0 <= i < |xs| ==> r[i] == f(xs[i])
  {
    seq(|xs|, i requires 0 <= i < |xs| => f(xs[i]))
  }
}

=== FILE: wrappers.dfy ===
/** The two sum types the model is built on: `Option`, for a JSON field or
    state cell that may be `null`/`undefined`, and `Result`, for the outcome
    of a call that either returns a value or throws an error. */
module Wrappers {

  datatype Option<+T> = None | Some(value: T) {

    /** The present value, or `default` when absent (JavaScript's `x || default`
        on a value that is never falsy except when absent or zero). */
    function GetOr(default: T): T {
      match this
      case Some(v) => v
      case None => default
    }
  }

  /** Either a value, or the error a JavaScript `throw` would carry. */
  datatype Result<+R, +E> = Success(value: R) | Failure(error: E)
}
